=== FILE: README.md ===
# Account verification backend — Dafny model

This project models the core of a small Express/MongoDB authentication
backend:
- the account handlers of `backend/controller/authController.js`: `register`, `login`, `logout`, `sendverifyOTP` and `verifyEmail`;
- the session gate `userAuth` of `backend/middleware/userAuth.js`;
- the way the two are wired in front of `/send-verify-otp` and `/verify-account`.

Each handler is a pure transition. It maps a user store (`map<Id, Account>`)
and explicit request inputs to the new store and the JSON response it sends:
status, `success`, `message`, public user fields and the cookie effect. The
collaborators are parameters:

- clock: `now`, milliseconds, standing for `Date.now()`;
- random draw: `r` with `0 <= r < 900000`, standing for `Math.floor(Math.random() * 900000)`;
- password hashing: a `Hasher` record holding `hash` (bcrypt with its salt) and `matches` (bcrypt's compare). Lemmas that need it assume `Sound`: a password matches its own hash;
- token signing and verification: `sign: Id -> string` and `decode: string -> Verified`, where `Verified` is the verifier's error message or the payload's `id`. Lemmas that need it assume `Honours`: decoding a signed token gives back its id. Tokens expire after 7 days, so these lemmas (`SignedTokenIdentifies`, `LoginTokenPassesGate`) describe a token presented within its lifetime;
- document id of a new user: `newId`, required to be absent from the store, as the database's id generator guarantees;
- mail transport: `MailOutcome`, either `Sent` or `Failed(message)`;
- schema defaults: `Defaults`, for the fields the registration handler does not set. The user schema is not part of this model.

Files:
- `js_values.dfy`: JavaScript truthiness, strict equality against a string, and body fields.
- `decimal.dfy`: the decimal rendering behind `otp.toString()` and the six-digit code.
- `accounts.dfy`: the `Account` record, the store, its invariants, responses and collaborators.
- `auth_controller.dfy`: the handlers.
- `user_auth.dfy`: the gate.
- `auth_routes.dfy`: the gate composed with the handlers, as written and as the handlers expect.
- `auth_properties.dfy`: properties across several calls.

## Model

| member | source | states |
|---|---|---|
| Decimal.ToDecimal | backend/controller/authController.js:141 | the decimal numeral of a non-negative integer is non-empty, all digits, and starts with `0` only for zero. It equals `toString()` for integers up to 2^53 (Number.MAX_SAFE_INTEGER + 1), which covers the codes in [100000, 999999]; above 2^53 `toString()` rounds to the fewest identifying digits, and from 10^21 on it uses exponent notation |
| Decimal.ParseToDecimal | backend/controller/authController.js:141 | reading a rendered number back gives the number |
| Decimal.DecimalToParse | backend/controller/authController.js:141 | rendering a parsed canonical numeral gives the numeral back (other half of the round trip) |
| Decimal.SixDigitNumerals | backend/controller/authController.js:140-141 | a number renders to exactly six characters iff it lies in [100000, 999999] |
| Decimal.OtpCode | backend/controller/authController.js:141 | the drawn code is six digits with no leading zero and has the value 100000 + r |
| Decimal.OtpCodeInjective | backend/controller/authController.js:141 | two draws give the same code iff they are the same draw |
| Decimal.OtpCodeOnto | backend/controller/authController.js:141 | every six-digit code without a leading zero is produced by exactly one draw in range |
| AuthController.Register | backend/controller/authController.js:6-66 | checks, in order: missing fields give 400 "Missing details!", a taken email gives 400 "User already exists!", and both leave the store unchanged. Success iff neither applies. On success exactly one record is added, under the new id, with the given name and email and the password's hash; its verified flag, code and expiry are the schema defaults given by `defaults`. The response is 201 "User registered successfully!" and exposes only id, name and email. The cookie carries the token for the new id. No existing record changes. Email uniqueness and code shape are preserved. A sound hasher accepts the password against the stored hash |
| AuthController.Login | backend/controller/authController.js:68-114 | never changes the store. Missing fields give 400 and an unknown email gives 404 "Invalid email!". Success (200 "User successfully logged in!") means a user with that email whose hash matches the password, and the cookie carries that user's token. A registered email that does not succeed always gets 401 "Invalid password!", whichever user the lookup returns. With unique emails, that user's hash alone decides between success and 401 "Invalid password!" |
| AuthController.Logout | backend/controller/authController.js:116-128 | store unchanged; answers 200 "Logged out!" with success and no user object, and clears the token cookie |
| AuthController.SendVerifyOtp | backend/controller/authController.js:131-159 | an unknown id gives a 500 TypeError and a verified account gives "Account already verified!"; neither changes anything. Otherwise only that user's record changes: it gets a six-digit code of value 100000 + r and expiry now + 86400000, with name, email, hash and verified flag kept. The code stays stored even when the mail fails, which answers 500 with the mail error. Success iff the account is unverified and the mail went out, and then the answer is exactly 200 "Verification OTP sent to email" with the cookie untouched. Store invariants are preserved |
| AuthController.VerifyEmail | backend/controller/authController.js:161-194 | checks, in order: a falsy otp gives 404 "Missing OTP!" before any lookup, then "User not found!", then an empty or non-identical stored code gives "Invalid OTP!" at any time, and only then "OTP expired!" iff `verifyOTPExpiredAt < now`. Success iff the stored code is non-empty, the submission is that same string, and now <= expiry, and then the answer is exactly 200 "Email verified successfully!" with the cookie untouched. No failing path writes. Success sets verified, clears the code and zeroes the expiry, touching only that user |
| UserAuth.Identify | backend/middleware/userAuth.js:4-22 | checks, in order: no or empty cookie gives "Not authorized login again!", a failed verification gives the verifier's message, and a payload without an id gives "Not authorized login again!". It yields a caller iff all three checks pass, and the caller is the payload's id |
| UserAuth.Gate | backend/middleware/userAuth.js:3-23 | proceeds iff the caller is identified. The body handed on is exactly `{userId: id}`, so `otp` is gone, and `req.user` is left as it was. A refusal carries the identification's message |
| UserAuth.GateFixed | backend/middleware/userAuth.js:11-12 | corrected gate: proceeds on the same condition but sets `req.user` to the caller and keeps the rest of the body, `otp` included, with `userId` set to the caller |
| UserAuth.SignedTokenIdentifies | backend/middleware/userAuth.js:10-12 | a token the application signed for an id passes the gate as that id |
| AuthRoutes.SendVerifyOtpHandler | backend/controller/authController.js:132-134 | with `req.user` undefined the handler answers 500 with the destructuring TypeError. Otherwise it acts as `SendVerifyOtp` for that user |
| AuthRoutes.VerifyEmailHandler | backend/controller/authController.js:161-163 | with `req.user` undefined the handler throws outside its try and sends nothing, store unchanged. Otherwise it acts as `VerifyEmail` with the body's `otp` |
| AuthRoutes.SendVerifyOtpRoute | backend/routes/authRoutes.js:16 | as wired, never succeeds and never changes the store. An identified caller gets the 500 TypeError; an unidentified one gets the gate's message |
| AuthRoutes.VerifyAccountRoute | backend/routes/authRoutes.js:17 | as wired, never changes the store. The handler throws exactly when the caller is identified; otherwise the gate answers |
| AuthRoutes.SendVerifyOtpRouteFixed | backend/routes/authRoutes.js:16 | with the corrected gate, an identified caller gets `SendVerifyOtp` for their own id; others get the gate's refusal |
| AuthRoutes.VerifyAccountRouteFixed | backend/routes/authRoutes.js:17 | with the corrected gate, an identified caller gets `VerifyEmail` with their id and the body's `otp`; others get the gate's refusal |
| AuthRoutes.FixedRoutesVerify | backend/routes/authRoutes.js:16-17 | with the corrected wiring, a caller holding a valid token for an unverified account can request a code at `now` and submit it at `t`. The request succeeds, and the submission verifies the account iff t <= now + 24h; otherwise the answer is "OTP expired!" |
| AuthRoutes.WiredRoutesCounterexample | backend/middleware/userAuth.js:12 | concrete request (valid token, correct outstanding code) that the route as wired drops with a throw and leaves unverified, while the corrected route verifies |
| AuthProperties.RegisterIgnoresWelcomeMail | backend/controller/authController.js:46-51 | registration's response and store are the same whether the welcome mail is sent or fails |
| AuthProperties.LoginAfterRegister | backend/controller/authController.js:6-114 | with unique emails and a sound hasher, logging in right after a successful registration with the same credentials succeeds for the new id and sets its token |
| AuthProperties.LoginTokenPassesGate | backend/controller/authController.js:91-93 | the cookie of a successful login passes the gate as the logged-in user |
| AuthProperties.SendThenVerify | backend/controller/authController.js:141-185 | after a code is issued at `now`, submitting it at `t` verifies iff t <= now + 86400000. It succeeds exactly at the boundary and gives "OTP expired!" past it. No other submission verifies |
| AuthProperties.NumericCodeRejected | backend/controller/authController.js:174 | the code's numeric value sent as a JSON number gives "Invalid OTP!", because the comparison is strict |
| AuthProperties.CodeIsOneShot | backend/controller/authController.js:174-185 | after a successful verification every further attempt fails and writes nothing; any present code gives "Invalid OTP!" |
| AuthProperties.NoCodeAfterVerification | backend/controller/authController.js:136-138 | a verified account is refused a new code and left unchanged |
| AuthProperties.Handle | backend/controller/authController.js:6-194 | one request of any kind: only a registration adds a key, and the store evolves within the invariants |
| AuthProperties.RunKeepsInvariants | backend/controller/authController.js:6-194 | over any sequence of requests with fresh ids: emails stay unique and codes stay empty or six-digit. No user disappears; name, email and hash never change; a verified account stays verified |

## Left out

- The password-reset flow (reset codes and password change). It is not in this source.
- `backend/controller/userController.js` (`getUserData`). It is a read-only projection and not part of this model.
- Server bootstrap, CORS, the database connection, `listen`, and the frontend route table. These are I/O and UI.
- Cookie attributes (`httpOnly`, `secure`, `sameSite`, `maxAge`). They are configuration. The model records only whether a response sets the token, clears it or leaves it.
- Token contents and expiry. `sign` and `decode` are opaque; the 7-day lifetime lives inside `decode`, which reports an expired token as a verification error.
- bcrypt internals, including salt and cost factor 10. The `Hasher` parameter stands for them.
- Database failures. The `catch` blocks that answer 500 (or `success: false` in `verifyEmail`) with a thrown store error are not modelled: store reads and writes always succeed here. This includes the CastError that the id lookup throws for an id that is not an ObjectId. `Id` is any non-empty string, so for such an id the model answers as for an unknown id: the null-read TypeError in `SendVerifyOtp`, "User not found!" in `VerifyEmail`.
- AuthController.Register: requires the new document id to be absent from the store. It does not model a duplicate-key save failure, since the database's id generator rules that out.
- AuthController.Login: is a ghost function. The email lookup returns some matching user, and which one is unspecified when several share an email; that choice decides only between 200 and 401, which the contract states. Under `EmailsUnique`, which registration keeps, the choice is determined.
- Non-string JSON values for `name`, `email` and `password`. These fields are modelled as absent or strings, because their handling depends on schema casting and bcrypt argument checks that are not visible here. `otp` is modelled as any JSON value, because the strict `!==` comparison is visible.
- JSON numbers are integers in this model. Fractional values only affect truthiness through `0`, which is kept.
- Floating point in `Math.random`. The draw `r` is an integer in [0, 900000). The rounding corner where `100000 + x * 900000` could reach 1000000 is not represented.
- Concurrent requests on the same account. Every handler is one atomic read-then-write.
- What Express does with a rejection that escapes a handler. The model records only that the handler sent nothing and changed nothing (`Escaped`).
- Mail contents and welcome-mail logging. Only the send's success or failure is modelled.

## Notes on the code

Where the intended design and the code differ, the model follows the code:
- The expiry field is spelled `verifyOTPExpiredAt`.
- The gate answers refusals with HTTP status 200 and `success: false`, not an unauthorized status.
- A missing `otp` answers status 404.
- A failed verification-code mail answers 500, but the new code stays stored, because the record is saved before the mail is sent.
- The initial verified flag and code fields come from schema defaults that are not visible. Registration therefore takes them as the `Defaults` parameter; nothing asserts they are `false` and empty.

## Findings

| source | as written | input that shows it | evidently intended | confidence | as-written member | corrected member |
|---|---|---|---|---|---|---|
| backend/middleware/userAuth.js:12 | The gate replaces `req.body` with `{ userId }` and never sets `req.user`. The handlers behind it read the caller from `req.user` (authController.js:133, :163) and `otp` from `req.body` (authController.js:162). Every request the gate lets through answers 500 on send-verify-otp, and verify-account throws before its `try` for every such request. Requests the gate refuses get its status-200 `success: false` answer. So no account can be verified | A valid token for an unverified account holding code "123456", with body `{ otp: "123456" }` | The gate sets `req.user = { userId }` and keeps the rest of the body. It still sets `userId` in the body, which `backend/controller/userController.js` reads | high; not executed | AuthRoutes.WiredRoutesCounterexample | AuthRoutes.FixedRoutesVerify |

=== FILE: accounts.dfy ===
/** The user store the handlers read and write, the responses they send, and
    the collaborators (password hasher, mail transport) they call. */
module Accounts {
  import opened JsValues
  import opened Decimal

  /** A document id as a string. The database hands out ObjectId hex strings;
      the model admits any non-empty string, and an id that is not a valid
      ObjectId is treated like one that is not in the store. */
  type Id = s: string | s != "" witness "0"

  /** One user document, with the fields the authentication handlers touch. */
  datatype Account = Account(
    name: string,
    email: string,
    passwordHash: string,
    isAccountVerified: bool,
    verifyOTP: string,
    verifyOTPExpiredAt: int)

  /** The users collection, keyed by document id. */
  type Store = map<Id, Account>

  /** Milliseconds in 24 hours: the lifetime of an email-verification code. */
  const DayMillis: int := 24 * 60 * 60 * 1000

  /** Some user has this email. */
  predicate EmailTaken(store: Store, email: string) {
    exists id :: id in store && store[id].email == email
  }

  /** No two users share an email. */
  ghost predicate EmailsUnique(store: Store) {
    forall a, b :: a in store && b in store && store[a].email == store[b].email ==> a == b
  }

  /** Every stored verification code is either cleared or a six-digit code. */
  ghost predicate CodesWellFormed(store: Store) {
    forall id :: id in store ==> store[id].verifyOTP == "" || IsOtpCode(store[id].verifyOTP)
  }

  /** How the store may change across any handler of this core: no user
      disappears, name, email and password hash never change, and a verified
      account stays verified. */
  ghost predicate Evolves(before: Store, after: Store) {
    && before.Keys <= after.Keys
    && forall id :: id in before ==>
         && after[id].name == before[id].name
         && after[id].email == before[id].email
         && after[id].passwordHash == before[id].passwordHash
         && (before[id].isAccountVerified ==> after[id].isAccountVerified)
  }

  /** `store'` differs from `store` at most in the record of `id`. */
  ghost predicate OnlyTouches(store: Store, store': Store, id: Id) {
    && store'.Keys == store.Keys
    && forall other :: other in store && other != id ==> store'[other] == store[other]
  }

  /** The fields of a user exposed in a response body; the hash is not among them. */
  datatype PublicUser = PublicUser(id: Id, name: string, email: string)

  /** What a response does to the `token` cookie. */
  datatype CookieEffect = KeepCookie | SetToken(token: string) | ClearToken

  /** An HTTP response: status code and the JSON body's `success`, `message`
      and `user` fields, plus its effect on the session cookie. */
  datatype Response = Response(
    status: int,
    success: bool,
    message: string,
    user: Option<PublicUser>,
    cookie: CookieEffect)

  /** A plain `{ success, message }` response that leaves the cookie alone. */
  function Reply(status: int, success: bool, message: string): Response {
    Response(status, success, message, None, KeepCookie)
  }

  /** The store after a handler ran, and the response it sent. */
  datatype Step = Step(store: Store, response: Response)

  /** The password hashing collaborator: a salted one-way `hash` (the salt is
      part of the chosen function) and the comparison `matches(plain, hash)`. */
  datatype Hasher = Hasher(hash: string -> string, matches: (string, string) -> bool)

  /** The one property the handlers rely on: a password matches its own hash. */
  ghost predicate Sound(h: Hasher) {
    forall pw :: h.matches(pw, h.hash(pw))
  }

  /** Whether a mail send resolved or rejected (with the error's message). */
  datatype MailOutcome = Sent | Failed(error: string)

  /** The values the (unseen) user schema gives a new document for the fields
      the registration handler does not set. */
  datatype Defaults = Defaults(isAccountVerified: bool, verifyOTP: string, verifyOTPExpiredAt: int)
}

=== FILE: auth_controller.dfy ===
/** The authentication handlers as transitions of the user store.

    Every collaborator a handler calls is a parameter: the password `Hasher`,
    the token signer `sign` (a signed 7-day token carrying the user id), the
    clock reading `now` in milliseconds, the random draw `r` standing for
    `Math.floor(Math.random() * 900000)`, the id the database assigns to a new
    document, and the outcome of the mail send. */
module AuthController {
  import opened JsValues
  import opened Decimal
  import opened Accounts

  const MissingDetails := "Missing details!"
  const UserExists := "User already exists!"
  const Registered := "User registered successfully!"
  const CredentialsRequired := "Email and Password are required!"
  const InvalidEmail := "Invalid email!"
  const InvalidPassword := "Invalid password!"
  const LoggedIn := "User successfully logged in!"
  const LoggedOut := "Logged out!"
  const AlreadyVerified := "Account already verified!"
  const OtpSent := "Verification OTP sent to email"
  const MissingOtp := "Missing OTP!"
  const UserNotFound := "User not found!"
  const InvalidOtp := "Invalid OTP!"
  const OtpExpired := "OTP expired!"
  const EmailVerified := "Email verified successfully!"

  /** The runtime's TypeError message when the user lookup found nothing and
      the handler reads `isAccountVerified` of `null`. */
  const NullUserRead := "Cannot read properties of null (reading 'isAccountVerified')"

  /** POST /register. The welcome mail is sent after the account is saved and
      its failure is only logged, so `welcome` cannot affect the result. */
  function Register(
    store: Store, name: Option<string>, email: Option<string>, password: Option<string>,
    newId: Id, hasher: Hasher, defaults: Defaults, sign: Id -> string, welcome: MailOutcome): (r: Step)
    requires newId !in store
    // the three fields are checked before the store is consulted
    ensures !(Present(name) && Present(email) && Present(password)) ==>
      r == Step(store, Reply(400, false, MissingDetails))
    ensures Present(name) && Present(email) && Present(password) && EmailTaken(store, email.value) ==>
      r == Step(store, Reply(400, false, UserExists))
    ensures r.response.success <==>
      Present(name) && Present(email) && Present(password) && !EmailTaken(store, email.value)
    // a rejected request leaves the store as it was
    ensures !r.response.success ==> r.store == store
    // a successful one adds exactly one record, the new user's, with the hashed password
    ensures r.response.success ==>
      && r.store.Keys == store.Keys + {newId}
      && r.store[newId].name == name.value
      && r.store[newId].email == email.value
      && r.store[newId].passwordHash == hasher.hash(password.value)
      // the remaining fields come from the schema: a new account starts as the defaults say
      && r.store[newId].isAccountVerified == defaults.isAccountVerified
      && r.store[newId].verifyOTP == defaults.verifyOTP
      && r.store[newId].verifyOTPExpiredAt == defaults.verifyOTPExpiredAt
      && r.response.status == 201
      && r.response.message == Registered
      && r.response.user == Some(PublicUser(newId, name.value, email.value))
      && r.response.cookie == SetToken(sign(newId))
    ensures r.response.success && Sound(hasher) ==>
      hasher.matches(password.value, r.store[newId].passwordHash)
    ensures forall id :: id in store ==> id in r.store && r.store[id] == store[id]
    ensures Evolves(store, r.store)
    ensures EmailsUnique(store) ==> EmailsUnique(r.store)
    ensures CodesWellFormed(store) && (defaults.verifyOTP == "" || IsOtpCode(defaults.verifyOTP)) ==>
      CodesWellFormed(r.store)
  {
    if !Present(name) || !Present(email) || !Present(password) then
      Step(store, Reply(400, false, MissingDetails))
    else if EmailTaken(store, email.value) then
      Step(store, Reply(400, false, UserExists))
    else
      var account := Account(name.value, email.value, hasher.hash(password.value),
                             defaults.isAccountVerified, defaults.verifyOTP, defaults.verifyOTPExpiredAt);
      Step(store[newId := account],
           Response(201, true, Registered, Some(PublicUser(newId, name.value, email.value)), SetToken(sign(newId))))
  }

  /** POST /login. The lookup by email returns some user with that email; the
      database does not say which if several share it, so the choice is left
      unspecified (ghost). */
  ghost function Login(
    store: Store, email: Option<string>, password: Option<string>, hasher: Hasher, sign: Id -> string): (r: Step)
    ensures r.store == store
    ensures !(Present(email) && Present(password)) ==> r.response == Reply(400, false, CredentialsRequired)
    ensures Present(email) && Present(password) && !EmailTaken(store, email.value) ==>
      r.response == Reply(404, false, InvalidEmail)
    // whichever user has the email is returned, a failure for it is a wrong password
    ensures Present(email) && Present(password) && EmailTaken(store, email.value) && !r.response.success ==>
      r.response == Reply(401, false, InvalidPassword)
    // success names a user with that email whose hash the password matches
    ensures r.response.success <==>
      Present(email) && Present(password) && r.response.user.Some? && r.response.status == 200
    ensures r.response.success ==>
      var id := r.response.user.value.id;
      && id in store
      && store[id].email == email.value
      && hasher.matches(password.value, store[id].passwordHash)
      && r.response.user.value == PublicUser(id, store[id].name, store[id].email)
      && r.response.message == LoggedIn
      && r.response.cookie == SetToken(sign(id))
    // with unique emails the outcome is fixed by the one user who has the email
    ensures Present(email) && Present(password) && EmailsUnique(store) ==>
      forall id :: id in store && store[id].email == email.value ==>
        if hasher.matches(password.value, store[id].passwordHash)
        then r.response.success && r.response.user.value.id == id
        else r.response == Reply(401, false, InvalidPassword)
  {
    var response :=
      if !Present(email) || !Present(password) then
        Reply(400, false, CredentialsRequired)
      else if !EmailTaken(store, email.value) then
        Reply(404, false, InvalidEmail)
      else
        var id :| id in store && store[id].email == email.value;
        var user := store[id];
        if !hasher.matches(password.value, user.passwordHash) then
          Reply(401, false, InvalidPassword)
        else
          Response(200, true, LoggedIn, Some(PublicUser(id, user.name, user.email)), SetToken(sign(id)));
    Step(store, response)
  }

  /** POST /logout: clears the cookie and never touches the store. */
  function Logout(store: Store): (r: Step)
    ensures r.store == store
    ensures r.response.success && r.response.cookie == ClearToken && r.response.status == 200
    ensures r.response.message == LoggedOut && r.response.user == None
  {
    Step(store, Response(200, true, LoggedOut, None, ClearToken))
  }

  /** POST /send-verify-otp for the user `userId`. The code is saved before the
      mail is sent, so a failed send still leaves the new code stored. */
  function SendVerifyOtp(store: Store, userId: Id, r: int, now: int, mail: MailOutcome): (s: Step)
    requires 0 <= r < 900000
    ensures userId !in store ==> s == Step(store, Reply(500, false, NullUserRead))
    // an already-verified account is refused softly and left alone
    ensures userId in store && store[userId].isAccountVerified ==>
      s == Step(store, Reply(200, false, AlreadyVerified))
    ensures s.response.success <==> userId in store && !store[userId].isAccountVerified && mail == Sent
    ensures s.response.success ==> s.response == Reply(200, true, OtpSent)
    ensures mail.Failed? && userId in store && !store[userId].isAccountVerified ==>
      s.response == Reply(500, false, mail.error)
    // otherwise a fresh six-digit code with a 24-hour expiry is stored, whatever the mail does
    ensures userId in store && !store[userId].isAccountVerified ==>
      && OnlyTouches(store, s.store, userId)
      && IsOtpCode(s.store[userId].verifyOTP)
      && ParseDecimal(s.store[userId].verifyOTP) == 100000 + r
      && s.store[userId].verifyOTPExpiredAt == now + DayMillis
      && s.store[userId].name == store[userId].name
      && s.store[userId].email == store[userId].email
      && s.store[userId].passwordHash == store[userId].passwordHash
      && !s.store[userId].isAccountVerified
    ensures !(userId in store && !store[userId].isAccountVerified) ==> s.store == store
    ensures Evolves(store, s.store)
    ensures EmailsUnique(store) ==> EmailsUnique(s.store)
    ensures CodesWellFormed(store) ==> CodesWellFormed(s.store)
  {
    if userId !in store then
      Step(store, Reply(500, false, NullUserRead))
    else
      var user := store[userId];
      if user.isAccountVerified then
        Step(store, Reply(200, false, AlreadyVerified))
      else
        var store' := store[userId := user.(verifyOTP := OtpCode(r), verifyOTPExpiredAt := now + DayMillis)];
        match mail
        case Sent => Step(store', Reply(200, true, OtpSent))
        case Failed(error) => Step(store', Reply(500, false, error))
  }

  /** The submitted `otp` redeems the code stored in `user` at time `now`: the
      code is outstanding, the submission is that very string, and the expiry
      has not passed (a code is still good at its expiry instant). */
  predicate Redeems(user: Account, otp: Option<Json>, now: int) {
    && user.verifyOTP != ""
    && otp == Some(JStr(user.verifyOTP))
    && now <= user.verifyOTPExpiredAt
  }

  /** POST /verify-account for the user `userId` with the submitted `otp`. */
  function VerifyEmail(store: Store, userId: Id, otp: Option<Json>, now: int): (s: Step)
    // a missing code is reported before the user is looked up
    ensures !Truthy(otp) ==> s.response == Reply(404, false, MissingOtp)
    ensures Truthy(otp) && userId !in store ==> s.response == Reply(200, false, UserNotFound)
    // an empty slot and a wrong code give one and the same answer, whatever the time
    ensures Truthy(otp) && userId in store && !StrictEqualsString(store[userId].verifyOTP, otp) ==>
      s.response == Reply(200, false, InvalidOtp)
    ensures Truthy(otp) && userId in store && store[userId].verifyOTP == "" ==>
      s.response == Reply(200, false, InvalidOtp)
    ensures userId in store && otp == Some(JStr(store[userId].verifyOTP)) && store[userId].verifyOTP != "" ==>
      (s.response == Reply(200, false, OtpExpired) <==> store[userId].verifyOTPExpiredAt < now)
    ensures s.response.success <==> userId in store && Redeems(store[userId], otp, now)
    ensures s.response.success ==> s.response == Reply(200, true, EmailVerified)
    // no failing path writes
    ensures !s.response.success ==> s.store == store
    // success verifies the account and consumes the code
    ensures s.response.success ==>
      && OnlyTouches(store, s.store, userId)
      && s.store[userId].isAccountVerified
      && s.store[userId].verifyOTP == ""
      && s.store[userId].verifyOTPExpiredAt == 0
      && s.store[userId].name == store[userId].name
      && s.store[userId].email == store[userId].email
      && s.store[userId].passwordHash == store[userId].passwordHash
    ensures Evolves(store, s.store)
    ensures EmailsUnique(store) ==> EmailsUnique(s.store)
    ensures CodesWellFormed(store) ==> CodesWellFormed(s.store)
  {
    if !Truthy(otp) then
      Step(store, Reply(404, false, MissingOtp))
    else if userId !in store then
      Step(store, Reply(200, false, UserNotFound))
    else
      var user := store[userId];
      if user.verifyOTP == "" || !StrictEqualsString(user.verifyOTP, otp) then
        Step(store, Reply(200, false, InvalidOtp))
      else if user.verifyOTPExpiredAt < now then
        Step(store, Reply(200, false, OtpExpired))
      else
        Step(store[userId := user.(isAccountVerified := true, verifyOTP := "", verifyOTPExpiredAt := 0)],
             Reply(200, true, EmailVerified))
  }
}

=== FILE: auth_properties.dfy ===
/** Properties that relate several handler calls: registration followed by
    login, a code sent and then redeemed, a code redeemed twice, and the store
    invariants kept by any sequence of requests. */
module AuthProperties {
  import opened JsValues
  import opened Decimal
  import opened Accounts
  import opened AuthController
  import opened UserAuth

  /** Whether the welcome mail goes out or fails, registration answers and
      stores the same. */
  lemma RegisterIgnoresWelcomeMail(
    store: Store, name: Option<string>, email: Option<string>, password: Option<string>,
    newId: Id, hasher: Hasher, defaults: Defaults, sign: Id -> string, error: string)
    requires newId !in store
    ensures Register(store, name, email, password, newId, hasher, defaults, sign, Sent)
         == Register(store, name, email, password, newId, hasher, defaults, sign, Failed(error))
  {
  }

  /** A user who has just registered can log in with the same email and
      password, and the login reaches the new account and no other. */
  lemma LoginAfterRegister(
    store: Store, name: Option<string>, email: Option<string>, password: Option<string>,
    newId: Id, hasher: Hasher, defaults: Defaults, sign: Id -> string, welcome: MailOutcome)
    requires newId !in store
    requires EmailsUnique(store) && Sound(hasher)
    requires Register(store, name, email, password, newId, hasher, defaults, sign, welcome).response.success
    ensures
      var after := Register(store, name, email, password, newId, hasher, defaults, sign, welcome).store;
      var login := Login(after, email, password, hasher, sign);
      && login.response.success
      && login.response.user == Some(PublicUser(newId, name.value, email.value))
      && login.response.cookie == SetToken(sign(newId))
  {
  }

  /** The cookie a successful login sets gets through the session gate as the
      user who logged in. */
  lemma LoginTokenPassesGate(
    store: Store, email: Option<string>, password: Option<string>, hasher: Hasher,
    sign: Id -> string, decode: string -> Verified)
    requires Honours(sign, decode)
    requires Login(store, email, password, hasher, sign).response.success
    ensures
      var login := Login(store, email, password, hasher, sign).response;
      Identify(Some(login.cookie.token), decode) == Caller(login.user.value.id)
  {
  }

  /** After a code is issued at `now` (whether or not its mail went out),
      submitting it at `t` verifies the account exactly when `t` is at most
      24 hours later, and no other submission verifies it. */
  lemma SendThenVerify(store: Store, id: Id, r: int, now: int, mail: MailOutcome, t: int)
    requires id in store && !store[id].isAccountVerified
    requires 0 <= r < 900000
    ensures
      var sent := SendVerifyOtp(store, id, r, now, mail).store;
      && (VerifyEmail(sent, id, Some(JStr(OtpCode(r))), t).response.success <==> t <= now + DayMillis)
      && (t == now + DayMillis ==> VerifyEmail(sent, id, Some(JStr(OtpCode(r))), t).response.success)
      && (t > now + DayMillis ==>
            VerifyEmail(sent, id, Some(JStr(OtpCode(r))), t).response == Reply(200, false, OtpExpired))
      && forall otp :: otp != Some(JStr(OtpCode(r))) ==> !VerifyEmail(sent, id, otp, t).response.success
  {
  }

  /** The code is typed as a string: its numeric value sent as a JSON number
      never verifies, even on time. */
  lemma NumericCodeRejected(store: Store, id: Id, r: int, now: int, mail: MailOutcome, t: int)
    requires id in store && !store[id].isAccountVerified
    requires 0 <= r < 900000
    ensures
      var sent := SendVerifyOtp(store, id, r, now, mail).store;
      VerifyEmail(sent, id, Some(JNum(100000 + r)), t).response == Reply(200, false, InvalidOtp)
  {
  }

  /** A code works once: after a successful verification every further
      attempt fails, a present code with "Invalid OTP!", and writes nothing. */
  lemma CodeIsOneShot(store: Store, id: Id, otp: Option<Json>, now: int, again: Option<Json>, later: int)
    requires VerifyEmail(store, id, otp, now).response.success
    ensures
      var after := VerifyEmail(store, id, otp, now).store;
      var second := VerifyEmail(after, id, again, later);
      && !second.response.success
      && second.store == after
      && (Truthy(again) ==> second.response == Reply(200, false, InvalidOtp))
  {
  }

  /** Once verified, an account is refused a new code and left unchanged. */
  lemma NoCodeAfterVerification(
    store: Store, id: Id, otp: Option<Json>, now: int, r: int, later: int, mail: MailOutcome)
    requires VerifyEmail(store, id, otp, now).response.success
    requires 0 <= r < 900000
    ensures
      var after := VerifyEmail(store, id, otp, now).store;
      SendVerifyOtp(after, id, r, later, mail) == Step(after, Reply(200, false, AlreadyVerified))
  {
  }

  /** One request to the account handlers, with the collaborator results it
      will meet (new document id, random draw, clock, mail outcome). */
  datatype Call =
    | RegisterCall(name: Option<string>, email: Option<string>, password: Option<string>, newId: Id, welcome: MailOutcome)
    | LoginCall(loginEmail: Option<string>, loginPassword: Option<string>)
    | LogoutCall
    | SendOtpCall(userId: Id, r: int, now: int, mail: MailOutcome)
    | VerifyCall(verifyId: Id, otp: Option<Json>, verifyNow: int)

  /** The random draw of a send request lies in its range. */
  predicate ValidDraw(c: Call) {
    c.SendOtpCall? ==> 0 <= c.r < 900000
  }

  /** The ids the database hands out are new: none is in the starting store
      and no two registrations get the same one. */
  ghost predicate FreshIds(store: Store, calls: seq<Call>) {
    forall i :: 0 <= i < |calls| && calls[i].RegisterCall? ==>
      && calls[i].newId !in store
      && forall j :: 0 <= j < i && calls[j].RegisterCall? ==> calls[j].newId != calls[i].newId
  }

  /** The store after one request. */
  ghost function Handle(store: Store, c: Call, hasher: Hasher, defaults: Defaults, sign: Id -> string): (after: Store)
    requires ValidDraw(c)
    requires c.RegisterCall? ==> c.newId !in store
    ensures after.Keys <= store.Keys + (if c.RegisterCall? then {c.newId} else {})
    ensures Evolves(store, after)
    ensures EmailsUnique(store) ==> EmailsUnique(after)
    ensures CodesWellFormed(store) && (defaults.verifyOTP == "" || IsOtpCode(defaults.verifyOTP)) ==>
      CodesWellFormed(after)
  {
    match c
    case RegisterCall(name, email, password, newId, welcome) =>
      Register(store, name, email, password, newId, hasher, defaults, sign, welcome).store
    case LoginCall(email, password) => Login(store, email, password, hasher, sign).store
    case LogoutCall => Logout(store).store
    case SendOtpCall(userId, r, now, mail) => SendVerifyOtp(store, userId, r, now, mail).store
    case VerifyCall(userId, otp, now) => VerifyEmail(store, userId, otp, now).store
  }

  /** Ids fresh for a sequence stay fresh for its tail once its first request
      is handled: a registration adds only its own id, which no later
      registration reuses. */
  lemma FreshIdsTail(store: Store, calls: seq<Call>, hasher: Hasher, defaults: Defaults, sign: Id -> string)
    requires calls != [] && ValidDraw(calls[0])
    requires FreshIds(store, calls)
    ensures FreshIds(Handle(store, calls[0], hasher, defaults, sign), calls[1..])
  {
    var next := Handle(store, calls[0], hasher, defaults, sign);
    forall i | 0 <= i < |calls[1..]| && calls[1..][i].RegisterCall?
      ensures calls[1..][i].newId !in next
    {
      assert calls[1..][i] == calls[i + 1];
    }
  }

  /** The store after a sequence of requests, handled one after another. */
  ghost function Run(store: Store, calls: seq<Call>, hasher: Hasher, defaults: Defaults, sign: Id -> string): Store
    requires forall i :: 0 <= i < |calls| ==> ValidDraw(calls[i])
    requires FreshIds(store, calls)
    decreases |calls|
  {
    if calls == [] then store
    else
      var next := Handle(store, calls[0], hasher, defaults, sign);
      FreshIdsTail(store, calls, hasher, defaults, sign);
      Run(next, calls[1..], hasher, defaults, sign)
  }

  /** Over any sequence of requests, emails stay unique, stored codes stay
      well formed, no user disappears, names, emails and hashes never change,
      and a verified account stays verified. */
  lemma {:induction false} RunKeepsInvariants(
    store: Store, calls: seq<Call>, hasher: Hasher, defaults: Defaults, sign: Id -> string)
    requires forall i :: 0 <= i < |calls| ==> ValidDraw(calls[i])
    requires FreshIds(store, calls)
    requires EmailsUnique(store) && CodesWellFormed(store)
    requires defaults.verifyOTP == "" || IsOtpCode(defaults.verifyOTP)
    ensures EmailsUnique(Run(store, calls, hasher, defaults, sign))
    ensures CodesWellFormed(Run(store, calls, hasher, defaults, sign))
    ensures Evolves(store, Run(store, calls, hasher, defaults, sign))
    decreases |calls|
  {
    if calls != [] {
      var next := Handle(store, calls[0], hasher, defaults, sign);
      FreshIdsTail(store, calls, hasher, defaults, sign);
      RunKeepsInvariants(next, calls[1..], hasher, defaults, sign);
    }
  }
}

=== FILE: auth_routes.dfy ===
/** The two authenticated routes: the session gate followed by the handler.

    The handlers take the caller's id from `req.user` and the code from
    `req.body`, while the gate writes the id into a fresh `req.body` and never
    sets `req.user`; nothing else in the middleware chain (JSON body parsing,
    cookie parsing) sets it either. `SendVerifyOtpRoute` and
    `VerifyAccountRoute` compose the pieces as they are written;
    `SendVerifyOtpRouteFixed` and `VerifyAccountRouteFixed` compose the
    handlers with `GateFixed`, the wiring the handlers were written for. */
module AuthRoutes {
  import opened JsValues
  import opened Decimal
  import opened Accounts
  import opened AuthController
  import opened UserAuth

  /** The runtime's TypeError message for `const { userId } = req.user` while
      `req.user` is undefined. */
  const UserUndefined := "Cannot destructure property 'userId' of 'req.user' as it is undefined."

  /** A handler either sends a response, or throws outside its `try` block, in
      which case the rejection escapes the handler and it sends nothing. */
  datatype Outcome = Responded(step: Step) | Escaped(store: Store) {
    function StoreAfter(): Store {
      match this
      case Responded(step) => step.store
      case Escaped(store) => store
    }
  }

  /** The answer a gate gives for a refused request. */
  function Refuse(store: Store, message: string): (o: Outcome)
    ensures o.StoreAfter() == store
    ensures o.Responded? && !o.step.response.success
  {
    Responded(Step(store, Reply(200, false, message)))
  }

  /** `sendverifyOTP` reading its caller from `req.user`; the destructuring
      sits inside the handler's `try`, so a missing `req.user` becomes a 500. */
  function SendVerifyOtpHandler(store: Store, req: Request, r: int, now: int, mail: MailOutcome): (o: Outcome)
    requires 0 <= r < 900000
    ensures req.user.None? ==> o == Responded(Step(store, Reply(500, false, UserUndefined)))
    ensures req.user.Some? ==> o == Responded(SendVerifyOtp(store, req.user.value, r, now, mail))
  {
    match req.user
    case None => Responded(Step(store, Reply(500, false, UserUndefined)))
    case Some(id) => Responded(SendVerifyOtp(store, id, r, now, mail))
  }

  /** `verifyEmail` reading `otp` from `req.body` and its caller from
      `req.user`; both reads precede the `try`, so a missing `req.user` throws
      out of the handler. */
  function VerifyEmailHandler(store: Store, req: Request, now: int): (o: Outcome)
    ensures req.user.None? ==> o == Escaped(store)
    ensures req.user.Some? ==> o == Responded(VerifyEmail(store, req.user.value, Field(req.body, "otp"), now))
  {
    match req.user
    case None => Escaped(store)
    case Some(id) => Responded(VerifyEmail(store, id, Field(req.body, "otp"), now))
  }

  /** POST /send-verify-otp as wired: never stores a code. A request the gate
      lets through fails with the TypeError, and one it refuses is answered by
      the gate. */
  function SendVerifyOtpRoute(
    store: Store, token: Option<string>, body: Body, decode: string -> Verified,
    r: int, now: int, mail: MailOutcome): (o: Outcome)
    requires 0 <= r < 900000
    ensures o.StoreAfter() == store
    ensures o.Responded? && !o.step.response.success
    ensures Identify(token, decode).Caller? ==> o.step.response == Reply(500, false, UserUndefined)
    ensures Identify(token, decode).Denied? ==> o.step.response == Reply(200, false, Identify(token, decode).message)
  {
    match Gate(Request(token, body, None), decode)
    case Reject(message) => Refuse(store, message)
    case Proceed(req) => SendVerifyOtpHandler(store, req, r, now, mail)
  }

  /** POST /verify-account as wired: never verifies anyone. A request the gate
      lets through makes the handler throw. */
  function VerifyAccountRoute(
    store: Store, token: Option<string>, body: Body, decode: string -> Verified, now: int): (o: Outcome)
    ensures o.StoreAfter() == store
    ensures Identify(token, decode).Caller? <==> o.Escaped?
    ensures o.Responded? ==>
      o.step.response == Reply(200, false, Identify(token, decode).message)
  {
    match Gate(Request(token, body, None), decode)
    case Reject(message) => Refuse(store, message)
    case Proceed(req) => VerifyEmailHandler(store, req, now)
  }

  /** POST /send-verify-otp with the gate the handler expects. */
  function SendVerifyOtpRouteFixed(
    store: Store, token: Option<string>, body: Body, decode: string -> Verified,
    r: int, now: int, mail: MailOutcome): (o: Outcome)
    requires 0 <= r < 900000
    ensures o.Responded?
    ensures Identify(token, decode).Denied? ==> o == Refuse(store, Identify(token, decode).message)
    ensures Identify(token, decode).Caller? ==>
      o.step == SendVerifyOtp(store, Identify(token, decode).id, r, now, mail)
  {
    match GateFixed(Request(token, body, None), decode)
    case Reject(message) => Refuse(store, message)
    case Proceed(req) => SendVerifyOtpHandler(store, req, r, now, mail)
  }

  /** POST /verify-account with the gate the handler expects: the submitted
      code reaches the handler. */
  function VerifyAccountRouteFixed(
    store: Store, token: Option<string>, body: Body, decode: string -> Verified, now: int): (o: Outcome)
    ensures o.Responded?
    ensures Identify(token, decode).Denied? ==> o == Refuse(store, Identify(token, decode).message)
    ensures Identify(token, decode).Caller? ==>
      o.step == VerifyEmail(store, Identify(token, decode).id, Field(body, "otp"), now)
  {
    match GateFixed(Request(token, body, None), decode)
    case Reject(message) => Refuse(store, message)
    case Proceed(req) => VerifyEmailHandler(store, req, now)
  }

  /** With the expected wiring, a caller holding a token for an unverified
      account who asks for a code at `now` and submits it at `t` is verified
      exactly when `t` is at most 24 hours after `now`. */
  lemma FixedRoutesVerify(
    store: Store, id: Id, token: string, decode: string -> Verified, r: int, now: int, t: int)
    requires id in store && !store[id].isAccountVerified
    requires token != "" && decode(token) == Payload(Some(id))
    requires 0 <= r < 900000
    ensures
      var sent := SendVerifyOtpRouteFixed(store, Some(token), map[], decode, r, now, Sent);
      var verified := VerifyAccountRouteFixed(sent.StoreAfter(), Some(token), map["otp" := JStr(OtpCode(r))], decode, t);
      && sent.step.response.success
      && (verified.step.response.success <==> t <= now + DayMillis)
      && (verified.step.response.success ==> verified.StoreAfter()[id].isAccountVerified)
      && (!verified.step.response.success ==> verified.step.response == Reply(200, false, OtpExpired))
  {
  }

  /** One verify request through both wirings: an account with an outstanding
      code, a valid token for it and the correct code in the body. The route
      as wired throws and verifies nothing; the expected wiring verifies. */
  lemma WiredRoutesCounterexample()
    ensures
      var id: Id := "64f0c2a1e4b0a1b2c3d4e5f6";
      var user := Account("Alice", "alice@x.com", "h", false, "123456", 1000);
      var store := map[id := user];
      var decode := (t: string) => if t == "tok" then Payload(Some(id)) else VerifyError("invalid signature");
      var body := map["otp" := JStr("123456")];
      && VerifyAccountRoute(store, Some("tok"), body, decode, 500) == Escaped(store)
      && VerifyAccountRouteFixed(store, Some("tok"), body, decode, 500).step.response.success
  {
  }
}

=== FILE: decimal.dfy ===
/** Decimal numerals of non-negative integers and the six-digit one-time codes
    built on them. `Number.prototype.toString()` renders an integer exactly
    this way up to 2^53 (Number.MAX_SAFE_INTEGER + 1). Above that it prints the
    fewest significant digits that still identify the number and pads with
    zeros, so 2^64 prints as "18446744073709552000"; from 10^21 on it switches
    to exponent notation. The codes lie in [100000, 999999], well inside the
    exact range. */
module Decimal {

  predicate IsDigit(c: char) {
    '0' <= c <= '9'
  }

  predicate AllDigits(s: string) {
    forall i :: 0 <= i < |s| ==> IsDigit(s[i])
  }

  function Pow10(k: nat): (p: nat)
    ensures p >= 1
  {
    if k == 0 then 1 else 10 * Pow10(k - 1)
  }

  function DigitChar(d: nat): (c: char)
    requires d < 10
    ensures IsDigit(c)
  {
    ('0' as int + d) as char
  }

  function DigitValue(c: char): (d: nat)
    requires IsDigit(c)
    ensures d < 10
    ensures DigitChar(d) == c
    ensures d == 0 <==> c == '0'
  {
    c as int - '0' as int
  }

  /** The shortest decimal numeral of `n`: digits only, and no leading zero
      unless the number itself is zero. For `n` up to 2^53 this is what
      `toString()` gives. */
  function ToDecimal(n: nat): (s: string)
    ensures |s| >= 1 && AllDigits(s)
    ensures n == 0 <==> s[0] == '0'
  {
    if n < 10 then [DigitChar(n)] else ToDecimal(n / 10) + [DigitChar(n % 10)]
  }

  /** The value of a numeral read most significant digit first. */
  function ParseDecimal(s: string): (n: nat)
    requires AllDigits(s)
    ensures n < Pow10(|s|)
  {
    if s == [] then 0 else 10 * ParseDecimal(s[..|s| - 1]) + DigitValue(s[|s| - 1])
  }

  /** Reading back a rendered number gives the number. */
  lemma {:induction false} ParseToDecimal(n: nat)
    ensures ParseDecimal(ToDecimal(n)) == n
  {
    if n >= 10 {
      var s := ToDecimal(n);
      assert s[..|s| - 1] == ToDecimal(n / 10);
      ParseToDecimal(n / 10);
    }
  }

  /** A numeral with a non-zero leading digit is worth at least 10^(length-1). */
  lemma {:induction false} ParseLowerBound(s: string)
    requires AllDigits(s) && |s| >= 1 && s[0] != '0'
    ensures ParseDecimal(s) >= Pow10(|s| - 1)
  {
    if |s| > 1 {
      var p := s[..|s| - 1];
      assert p[0] == s[0];
      ParseLowerBound(p);
    }
  }

  /** Rendering a parsed canonical numeral (no leading zero, or the single
      digit "0") gives the numeral back: the other half of the round trip. */
  lemma {:induction false} DecimalToParse(s: string)
    requires AllDigits(s) && |s| >= 1
    requires |s| == 1 || s[0] != '0'
    ensures ToDecimal(ParseDecimal(s)) == s
  {
    if |s| > 1 {
      var p := s[..|s| - 1];
      assert p[0] == s[0];
      ParseLowerBound(p);
      DecimalToParse(p);
      var n := ParseDecimal(s);
      var d := DigitValue(s[|s| - 1]);
      assert n == 10 * ParseDecimal(p) + d;
      assert n / 10 == ParseDecimal(p) && n % 10 == d;
      assert ToDecimal(n) == ToDecimal(n / 10) + [DigitChar(n % 10)];
      assert s == p + [s[|s| - 1]];
    }
  }

  lemma {:induction false} Pow10Monotone(a: nat, b: nat)
    requires a <= b
    ensures Pow10(a) <= Pow10(b)
  {
    if a < b {
      Pow10Monotone(a, b - 1);
    }
  }

  /** The length of the numeral pins the number between two powers of ten. */
  lemma {:induction false} ToDecimalLength(n: nat)
    ensures n < Pow10(|ToDecimal(n)|)
    ensures n >= 10 ==> Pow10(|ToDecimal(n)| - 1) <= n
  {
    if n >= 10 {
      ToDecimalLength(n / 10);
    }
  }

  /** A number renders as exactly six characters iff it lies in [100000, 999999]. */
  lemma SixDigitNumerals(n: nat)
    ensures |ToDecimal(n)| == 6 <==> 100000 <= n <= 999999
  {
    var len := |ToDecimal(n)|;
    ToDecimalLength(n);
    assert Pow10(5) == 100000 && Pow10(6) == 1000000;
    if 100000 <= n <= 999999 {
      if len <= 5 {
        Pow10Monotone(len, 5);
      }
      if len >= 7 {
        Pow10Monotone(6, len - 1);
      }
    }
  }

  /** A verification code as it is stored: six decimal digits, the first non-zero. */
  predicate IsOtpCode(s: string) {
    |s| == 6 && AllDigits(s) && s[0] != '0'
  }

  /** The code drawn for a random integer `r` in [0, 900000): the numeral of
      `100000 + r`, so that it always has six digits and never a leading zero. */
  function OtpCode(r: int): (code: string)
    requires 0 <= r < 900000
    ensures IsOtpCode(code)
    ensures ParseDecimal(code) == 100000 + r
  {
    SixDigitNumerals(100000 + r);
    ParseToDecimal(100000 + r);
    ToDecimal(100000 + r)
  }

  /** Distinct draws give distinct codes. */
  lemma OtpCodeInjective(r1: int, r2: int)
    requires 0 <= r1 < 900000 && 0 <= r2 < 900000
    ensures OtpCode(r1) == OtpCode(r2) <==> r1 == r2
  {
  }

  /** Every six-digit code without a leading zero is drawn by exactly one `r`,
      so the codes are precisely the numerals of 100000 .. 999999. */
  lemma OtpCodeOnto(s: string)
    requires IsOtpCode(s)
    ensures 0 <= ParseDecimal(s) - 100000 < 900000
    ensures OtpCode(ParseDecimal(s) - 100000) == s
  {
    ParseLowerBound(s);
    assert Pow10(5) == 100000 && Pow10(6) == 1000000;
    DecimalToParse(s);
  }
}

=== FILE: js_values.dfy ===
/** JavaScript values as the request handlers see them: optional fields of a
    parsed JSON body, their truthiness, and strict equality against a string. */
module JsValues {

  /** `None` stands for `undefined`: a field the request did not carry. */
  datatype Option<+T> = None | Some(value: T)

  /** A parsed JSON value. Numbers are integral in this model; arrays and
      objects are folded into `JComposite`, since only their truthiness and
      their inequality to any string matter here. */
  datatype Json = JStr(str: string) | JNum(num: int) | JBool(flag: bool) | JNull | JComposite

  /** A request body: field name to value. */
  type Body = map<string, Json>

  /** Reads `body.key`; an absent key reads as `undefined`. */
  function Field(body: Body, key: string): (v: Option<Json>)
    ensures v.Some? <==> key in body
    ensures v.Some? ==> v.value == body[key]
  {
    if key in body then Some(body[key]) else None
  }

  /** JavaScript truthiness of a possibly-undefined JSON value. */
  predicate Truthy(v: Option<Json>) {
    match v
    case None => false
    case Some(JStr(s)) => s != ""
    case Some(JNum(n)) => n != 0
    case Some(JBool(b)) => b
    case Some(JNull) => false
    case Some(JComposite) => true
  }

  /** Truthiness of a possibly-undefined string field: present and non-empty. */
  predicate Present(s: Option<string>) {
    s.Some? && s.value != ""
  }

  /** `a === b` where `a` is a string: only a string with the same characters
      is strictly equal to it. */
  predicate StrictEqualsString(a: string, b: Option<Json>) {
    b == Some(JStr(a))
  }
}

=== FILE: user_auth.dfy ===
/** The session gate placed in front of the authenticated routes: it turns the
    `token` cookie into a caller identity or answers the request itself. */
module UserAuth {
  import opened JsValues
  import opened Accounts

  const NotAuthorized := "Not authorized login again!"

  /** What verifying a token yields: the verifier's error message (bad
      signature, expired, malformed), or the payload's `id` field. */
  datatype Verified = VerifyError(message: string) | Payload(id: Option<string>)

  /** A request as the route sees it: the `token` cookie, the parsed body, and
      `req.user` (`None` while nothing has set it). */
  datatype Request = Request(token: Option<string>, body: Body, user: Option<Id>)

  /** Who the cookie says the caller is, or why the request is refused. */
  datatype Identity = Denied(message: string) | Caller(id: Id)

  /** What the gate does with a request: answer it with `{ success: false,
      message }` (status 200), or hand a request on to the next handler once. */
  datatype GateResult = Reject(message: string) | Proceed(request: Request)

  /** The signer and the verifier agree: every token the application signs for
      an id is non-empty and verifies to a payload carrying that id. The tokens
      expire after 7 days, so a `decode` that honours `sign` describes tokens
      presented within that lifetime; the lemmas assuming it speak of those. */
  ghost predicate Honours(sign: Id -> string, decode: string -> Verified) {
    forall id: Id :: sign(id) != "" && decode(sign(id)) == Payload(Some(id))
  }

  /** The checks of the gate, in order: a cookie must be present, it must
      verify, and its payload must carry a non-empty id. */
  function Identify(token: Option<string>, decode: string -> Verified): (who: Identity)
    ensures !Present(token) ==> who == Denied(NotAuthorized)
    ensures Present(token) && decode(token.value).VerifyError? ==>
      who == Denied(decode(token.value).message)
    ensures Present(token) && decode(token.value).Payload? && !Present(decode(token.value).id) ==>
      who == Denied(NotAuthorized)
    ensures who.Caller? <==>
      Present(token) && decode(token.value).Payload? && Present(decode(token.value).id)
    ensures who.Caller? ==> decode(token.value) == Payload(Some(who.id))
  {
    if !Present(token) then
      Denied(NotAuthorized)
    else
      match decode(token.value)
      case VerifyError(message) => Denied(message)
      case Payload(id) =>
        if Present(id) then Caller(id.value) else Denied(NotAuthorized)
  }

  /** The gate as written: on success it replaces the whole body with
      `{ userId }` and leaves `req.user` as it was. */
  function Gate(req: Request, decode: string -> Verified): (g: GateResult)
    ensures g.Proceed? <==> Identify(req.token, decode).Caller?
    ensures g.Reject? ==> g.message == Identify(req.token, decode).message
    ensures g.Proceed? ==>
      && g.request.body == map["userId" := JStr(Identify(req.token, decode).id)]
      && g.request.token == req.token
      && g.request.user == req.user
    // in particular every other body field, `otp` included, is gone
    ensures g.Proceed? ==> Field(g.request.body, "otp") == None
  {
    match Identify(req.token, decode)
    case Denied(message) => Reject(message)
    case Caller(id) => Proceed(req.(body := map["userId" := JStr(id)]))
  }

  /** The gate as the handlers behind it expect it: the caller's id goes to
      `req.user`, and the body keeps every field it came with, `otp` included,
      with `userId` set to the caller for the readers that take it from the
      body. */
  function GateFixed(req: Request, decode: string -> Verified): (g: GateResult)
    ensures g.Proceed? <==> Identify(req.token, decode).Caller?
    ensures g.Reject? ==> g.message == Identify(req.token, decode).message
    ensures g.Proceed? ==>
      && g.request.user == Some(Identify(req.token, decode).id)
      && g.request.body == req.body["userId" := JStr(Identify(req.token, decode).id)]
      && g.request.token == req.token
    ensures g.Proceed? ==> Field(g.request.body, "otp") == Field(req.body, "otp")
  {
    match Identify(req.token, decode)
    case Denied(message) => Reject(message)
    case Caller(id) => Proceed(req.(user := Some(id), body := req.body["userId" := JStr(id)]))
  }

  /** A token the application signed for `id` gets through the gate as `id`. */
  lemma SignedTokenIdentifies(sign: Id -> string, decode: string -> Verified, id: Id)
    requires Honours(sign, decode)
    ensures Identify(Some(sign(id)), decode) == Caller(id)
  {
  }
}
